=== FILE: README.md ===
# rife-ncnn-vulkan Python binding: array/tensor marshaling

The repository exposes the RIFE frame-interpolation engine (running on ncnn
and Vulkan) to Python through pybind11. The only logic it owns is in
`src/bindings.cpp`:

- `pyarray_to_mat` turns a float32 NumPy array into an `ncnn::Mat`. A rank-2
  array `(H, W)` becomes a one-channel Mat with `w = W`, `h = H`. A rank-3
  array `(C, H, W)` becomes a Mat with `w = W`, `h = H`, `c = C`. Any other
  rank throws "Unsupported array dimension".
- `mat_to_pyarray` turns a Mat back into a NumPy array. A one-channel Mat
  gives shape `(h, w)`. Any other channel count, zero included, gives
  `(c, h, w)`. The byte strides are those of a C-contiguous float32 array.
- The `process` and `process_cpu` methods convert both input frames, call
  the engine's Vulkan or CPU path, and return `(status, frame)`. The status
  is the engine's, untouched.

The Dafny model is split into five modules:

- `Layout` (`layout.dfy`) holds row-major index and stride arithmetic: flat
  index, its inverse, dense strides, and byte offsets.
- `Marshal` (`marshal.dfy`) holds pybind11's `buffer_info`, `ncnn::Mat`, and
  the two conversions `PyArrayToMat` and `MatToPyArray`.
- `RoundTrip` (`roundtrip.dfy`) states what the two conversions do when
  composed: shapes, strides, and where each element ends up.
- `Contiguity` (`contiguity.dfy`) holds the finding below: input strides
  are ignored. It also holds the corrected input conversion.
- `Rife` (`rife.dfy`) holds the `process` / `process_cpu` wrappers, as
  written and with the corrected input conversion. The engine is a
  function parameter, and every engine call is recorded in the outcome.

Float elements are opaque 32-bit patterns (`bv32`), because no arithmetic
is done on pixels. The timestep is opaque too.

Two points where the binding's intended contract and its code differ are
modelled as the code does them:

- There is no "empty tensor" error. A Mat with `c == 0` takes the rank-3
  branch and gives shape `(0, h, w)`.
- Array to Mat to array does not always keep the rank. A rank-3 array
  `(1, H, W)` comes back as `(H, W)` (`RoundTrip.ShapeRoundTrip`,
  `RoundTrip.ShapePreservedIff`).

## Model

| member | source | states |
|---|---|---|
| `Marshal.PyArrayToMat` | src/bindings.cpp:5-18 | Succeeds exactly for rank 2 and rank 3, and fails with UnsupportedDimension otherwise. Rank 2 gives one channel with `[h, w]` equal to the shape. Rank 3 gives `[c, h, w]` equal to the shape, so the dimension order is reversed. The Mat's declared rank is the array's. The Mat holds the array's own elements, and the element count is preserved. |
| `Marshal.MatToPyArray` | src/bindings.cpp:21-39 | The rank is 2 exactly when `c == 1`, and 3 otherwise. Declared ndim, shape length and stride length agree. The strides satisfy the row-major recurrence: the last is 4 and each earlier one is the next times the next dimension. The shape ends with `(h, w)`, and rank 3 starts with `c`. Elements are unchanged. The Mat's declared rank is not read: converting back gives the same Mat except that its rank becomes 2 for one channel and 3 otherwise. |
| `Layout.DenseStrides` | src/bindings.cpp:31-36 | Stride i is the element size times the product of the dimensions after i. This is the closed form the emitted strides are checked against. |
| `Layout.RowMajorIffDense` | src/bindings.cpp:31-36 | In both directions, strides satisfy the binding's step-by-step recurrence exactly when they equal the dense closed form. |
| `Layout.DenseOffset` | src/bindings.cpp:31-36 | Under dense strides, the byte offset of an index is 4 times its row-major position, so there is no padding and no transposition. |
| `RoundTrip.ShapeRoundTrip` | src/bindings.cpp:9-28 | Array to Mat to array returns the buffer unchanged, re-read with dense strides whatever the input's strides were. `[H, W]` stays `[H, W]`, and `[C, H, W]` with `C != 1` stays as it is. `[1, H, W]` collapses to `[H, W]`. |
| `RoundTrip.ShapePreservedIff` | src/bindings.cpp:9-28 | The round trip keeps the shape exactly when the array is not rank 3 with one channel. |
| `RoundTrip.MatRoundTrip` | src/bindings.cpp:9-28 | Mat to array to Mat keeps width, height, channel count and elements for every Mat, zero channels included. The declared rank becomes 2 for one channel and 3 otherwise, so the Mat comes back unchanged exactly when it already had that rank. |
| `RoundTrip.SingleChannelRanksDiffer` | src/bindings.cpp:9-13 | `[H, W]` and `[1, H, W]` over the same buffer give Mats that agree in width, height, channel count and elements, and differ only in declared rank (2 and 3). |
| `RoundTrip.ValuesRoundTrip` | src/bindings.cpp:9-36 | For a C-contiguous input, the array that comes back holds at each index the value the input held there. For a `[1, H, W]` input the channel coordinate is dropped from the index. |
| `RoundTrip.EmittedIsContiguous` | src/bindings.cpp:31-38 | The array emitted for a packed Mat is C-contiguous: dense strides, and one element per index. |
| `RoundTrip.OutputElementAt` | src/bindings.cpp:31-38 | Mat element (x, y, z) is found in the emitted array at index `[z, y, x]`, or at `[y, x]` for one channel. |
| `RoundTrip.InputElementAt` | src/bindings.cpp:9-14 | For a C-contiguous input, Mat element (x, y, z) is the array element at `[z, y, x]`, or at `[y, x]` for rank 2. |
| `Contiguity.TransposedViewMisread` | src/bindings.cpp:5-13 | For the transposed 2 x 2 view, the Mat built as written holds 1.0 at column 1 of row 0, where the array holds 2.0. |
| `Contiguity.PyArrayToMatCopying` | src/bindings.cpp:5-18 | This is the corrected conversion. It has the same rank dispatch and dimension mapping. Every Mat element (x, y, z) is the array's element at the matching index, whatever the array's strides are, provided each is a whole number of floats. |
| `Contiguity.CopyingAgreesOnContiguous` | src/bindings.cpp:5-18 | On a C-contiguous array, the corrected conversion builds the same Mat as the code as written. |
| `Rife.Interpolate` | src/bindings.cpp:60-65 | The wrapper as written, for any frames pybind11 accepts. Succeeds exactly when both frames have rank 2 or 3. On failure the error is UnsupportedDimension and the engine is never called. On success the engine is called exactly once, on the Mats `pyarray_to_mat` builds from the two frames, and the timestep. The result is the engine's status unchanged, paired with its output converted. |
| `Rife.InterpolateCopying` | src/bindings.cpp:60-65 | The wrapper with the corrected input conversion. It has the same success condition and error, and the same single engine call and result, but the engine receives the Mats of `Contiguity.PyArrayToMatCopying`. |
| `Rife.Process` | src/bindings.cpp:60-65 | Succeeds exactly when both frames have rank 2 or 3. Otherwise the error is UnsupportedDimension and nothing is called. On success the Vulkan path is called exactly once, on the Mats `pyarray_to_mat` builds from the two frames, and the timestep. The result is that path's status unchanged, paired with its output frame converted. |
| `Rife.ProcessCpu` | src/bindings.cpp:70-75 | Succeeds exactly when both frames have rank 2 or 3. Otherwise the error is UnsupportedDimension and nothing is called. On success the CPU path is called exactly once, on the Mats `pyarray_to_mat` builds from the two frames, and the timestep. The result is that path's status unchanged, paired with its output frame converted. |
| `Rife.BackendsShareWrapper` | src/bindings.cpp:60-75 | `process_cpu` is `process` on an instance with the two paths swapped. |
| `Rife.FailureIndependentOfEngine` | src/bindings.cpp:61-64 | If either frame has an unsupported rank, the outcome is the same for every engine, and no call is recorded. |
| `Rife.OutputFrameShape` | src/bindings.cpp:64-65 | The returned frame is rank 2 exactly when the engine's output has one channel. Its strides are dense, and it carries the output's elements. |
| `Rife.ContiguousFramesAsWritten` | src/bindings.cpp:61-62 | For C-contiguous frames, the corrected wrapper produces the same outcome as the wrapper as written: the same engine call and the same result. |
| `Rife.TransposedFramesDiverge` | src/bindings.cpp:61-62 | On the transposed 2 x 2 view, the wrapper as written hands the engine a Mat holding 1.0 at column 1 of row 0, and the corrected wrapper one holding 2.0 there. |
| `Rife.TwoChannelScenario` | src/bindings.cpp:60-65 | An all-zeros and an all-ones `(2, 4, 4)` frame give one engine call on two-channel 4 x 4 Mats. A two-channel 4 x 4 output comes back with shape `(2, 4, 4)` and the engine's status. |
| `Rife.RankOneScenario` | src/bindings.cpp:15-16 | A rank-1 frame of length 10 is refused with UnsupportedDimension, and no engine call is made. |

## Left out

- The RIFE engine (`RIFE::process`, `RIFE::process_cpu`, `RIFE::load`) is foreign GPU/CPU inference code. It is a function parameter here.
- pybind11 module and class registration is not modelled. This includes argument defaults and the constructor's seven configuration values (src/bindings.cpp:41-52), which are forwarded without being read.
- The `load` wrapper (src/bindings.cpp:53-58) is not modelled. It forwards a path to the engine, widening it on Windows; that is platform path handling.
- Memory ownership is not modelled. The input Mat aliases the array's buffer, and `py::array(buffer_info)` copies the output. The model only states which elements each side holds.
- ncnn's channel-step alignment (`cstep`) is not modelled. A Mat's channels are taken to be packed back to back (`Marshal.Packed`), which is what the emitted rank-3 channel stride `4 * h * w` assumes. ncnn's Mat constructors are not part of this model. If they align each channel to 16 bytes, as the external-data constructor is usually described, then channel z of a Mat with `c > 1` starts at float `z * cstep` rather than `z * h * w` whenever `h * w % 4 != 0`. For example, channel 1 of a C-contiguous `(3, 3, 3)` frame would be read from element 12 rather than 9. So `RoundTrip.InputElementAt` and `RoundTrip.OutputElementAt`, which describe the Mat as ncnn indexes it, hold for real ncnn only when `c == 1` or `h * w % 4 == 0`. The round trip without the engine (`RoundTrip.ValuesRoundTrip`) keeps values whatever `cstep` is, because neither conversion reads it: the emitted array is laid over the input's own buffer with channel stride `4 * h * w`.
- The `(int)` narrowing of `ssize_t` shape entries (src/bindings.cpp:10, 13) and overflow of the `ssize_t` stride products are not modelled. Dimensions are unbounded naturals, assumed to fit.
- Negative NumPy strides are not modelled, because strides are naturals here. The finding below covers non-contiguous layouts whose strides are non-negative multiples of 4 bytes.
- Contiguity.PyArrayToMatCopying: its per-element promise is not stated for float32 views whose byte strides are not multiples of 4. An example is a field of a packed structured array, `np.zeros((2, 2), dtype=[('a', '<f4'), ('b', 'u1')])['a']`, with strides `(10, 5)`. Buffers here are sequences of whole floats, so an element that starts partway through a float cannot be represented. The code as written misreads such views too.
- ncnn's `elemsize` and `elempack` are not modelled. Every Mat is taken to hold unpacked 4-byte floats, which is what `mat_to_pyarray` assumes when it reads the engine's output. A Mat's declared rank (`dims`) is modelled.
- Float values and the timestep are opaque bit patterns, since the binding does no arithmetic on them.
- The two input frames are not required to have the same shape. The binding does not check this and leaves it to the engine, and so does the model.

## Findings

| source | as written | input that shows it | evidently intended | confidence | as-written member | corrected member |
|---|---|---|---|---|---|---|
| src/bindings.cpp:5-13 | The Mat is built from `buffer_info.ptr` and the shape alone; `buffer_info.strides` is never read. The parameter type `py::array_t<float>` only requests `forcecast`, so a non-contiguous float32 array arrives with its own strides. | `np.arange(4, dtype=np.float32).reshape(2, 2).T`: shape `(2, 2)`, strides `(4, 8)`, buffer `0.0, 1.0, 2.0, 3.0`. The array holds 2.0 at `[0][1]`, but the Mat holds 1.0 at column 1 of row 0. | Each Mat element is the array's element at the matching index, for any float32 array. For example, take a C-contiguous copy first (`py::array::c_style`). | medium; not executed | `Contiguity.TransposedViewMisread` | `Contiguity.PyArrayToMatCopying` |

=== FILE: contiguity.dfy ===
/** pyarray_to_mat reads an array through its data pointer alone. The
    parameter type py::array_t<float> carries only pybind11's forcecast flag,
    so a float32 array that is not C-contiguous (a transposed view, a sliced
    or strided view) reaches it with its real strides, and the Mat built over
    the pointer then pairs indices with the wrong elements.

    This module states that discrepancy on a concrete array, and defines the
    conversion the binding evidently intends: take a C-contiguous copy first
    (what py::array::c_style would request), then build the Mat over it.
 */
module Contiguity {
  import opened Layout
  import opened Marshal
  import opened RoundTrip

  /** Every byte stride is a whole number of floats and every in-bounds
      index addresses an element of the buffer. Float32 views whose strides
      split elements (a field of a packed structured array) are outside this
      model. */
  ghost predicate Addressable(a: BufferInfo)
  {
    && Consistent(a)
    && (forall i :: 0 <= i < |a.strides| ==> a.strides[i] % FloatSize == 0)
    && forall idx :: InBounds(a.shape, idx) ==> ArrayAt(a, idx).Some?
  }

  /** A C-contiguous array is addressable. */
  lemma ContiguousIsAddressable(a: BufferInfo)
    requires CContiguous(a)
    ensures Addressable(a)
  {
    forall idx | InBounds(a.shape, idx)
      ensures ArrayAt(a, idx).Some?
    {
      ContiguousArrayAt(a, idx);
    }
  }

  /** A transposed 2 x 2 view: shape (2, 2), strides (4, 8), buffer
      0.0, 1.0, 2.0, 3.0 (as float32 bit patterns). Its logical element
      [0][1] is buffer element 2, the value 2.0. */
  function TransposedView(): BufferInfo
  {
    BufferInfo([0, 0x3f80_0000, 0x4000_0000, 0x4040_0000], FloatSize, FloatFormat, 2, [2, 2], [4, 8])
  }

  /** The Mat pyarray_to_mat builds over the transposed view holds 1.0 at
      column 1 of row 0, where the array holds 2.0: the strides were
      ignored. */
  lemma TransposedViewMisread()
    ensures Addressable(TransposedView())
    ensures ArrayAt(TransposedView(), [0, 1]) == Some(0x4000_0000)
    ensures PyArrayToMat(TransposedView()).Ok?
    ensures Packed(PyArrayToMat(TransposedView()).value)
    ensures MatAt(PyArrayToMat(TransposedView()).value, 1, 0, 0) == 0x3f80_0000
  {
    var a := TransposedView();
    forall idx | InBounds(a.shape, idx)
      ensures ArrayAt(a, idx).Some?
    {
      assert idx[1..][1..] == [];
      assert Offset(a.strides[1..], idx[1..]) == idx[1] * 8 + Offset(a.strides[2..], idx[2..]);
      assert Offset(a.strides, idx) == idx[0] * 4 + idx[1] * 8;
    }
    assert Offset(a.strides, [0, 1]) == 8 by {
      assert [0, 1][1..][1..] == [];
    }
    var m := PyArrayToMat(a).value;
    assert FlatIndex(ChwShape(m), [0, 0, 1]) == 1 by {
      assert [0, 0, 1][1..] == [0, 1] && [0, 1][1..] == [1] && [1][1..] == [];
      assert ChwShape(m)[1..] == [2, 2] && [2, 2][1..] == [2] && [2][1..] == [];
    }
  }

  /** Buffer element k of the C-contiguous copy: the array's element at
      row-major position k. */
  function Gather(a: BufferInfo, k: nat): Float32
    requires Addressable(a) && k < Product(a.shape)
  {
    ArrayAt(a, Unflatten(a.shape, k)).value
  }

  /** A C-contiguous copy of the array: the same shape and the same element
      at every index, with dense row-major strides. */
  function MakeContiguous(a: BufferInfo): (c: BufferInfo)
    requires Addressable(a)
    ensures CContiguous(c)
    ensures c.ndim == a.ndim && c.shape == a.shape
    ensures forall idx :: InBounds(a.shape, idx) ==> ArrayAt(c, idx) == ArrayAt(a, idx)
  {
    var n := Product(a.shape);
    var c := BufferInfo(
      seq(n, k requires 0 <= k < n => Gather(a, k)),
      FloatSize, FloatFormat, a.ndim, a.shape, DenseStrides(a.shape, FloatSize));
    CopyAgrees(a, c);
    c
  }

  /** The gathered copy holds, at every index, the element the array holds
      there. */
  lemma CopyAgrees(a: BufferInfo, c: BufferInfo)
    requires Addressable(a)
    requires c == BufferInfo(
      seq(Product(a.shape), k requires 0 <= k < Product(a.shape) => Gather(a, k)),
      FloatSize, FloatFormat, a.ndim, a.shape, DenseStrides(a.shape, FloatSize))
    ensures CContiguous(c)
    ensures forall idx :: InBounds(a.shape, idx) ==> ArrayAt(c, idx) == ArrayAt(a, idx)
  {
    forall idx | InBounds(a.shape, idx)
      ensures ArrayAt(c, idx) == ArrayAt(a, idx)
    {
      ContiguousArrayAt(c, idx);
      UnflattenFlatIndex(a.shape, idx);
    }
  }

  /** On an array that is already C-contiguous the copy changes nothing. */
  lemma CopyOfContiguous(a: BufferInfo)
    requires CContiguous(a)
    ensures Addressable(a)
    ensures MakeContiguous(a).data == a.data
  {
    ContiguousIsAddressable(a);
    var c := MakeContiguous(a);
    forall k | 0 <= k < |a.data|
      ensures c.data[k] == a.data[k]
    {
      ContiguousArrayAt(a, Unflatten(a.shape, k));
    }
  }

  /** pyarray_to_mat as evidently intended: every element of the Mat is the
      array's element at the matching index, whatever the array's
      (float-aligned) strides.
      Rank dispatch and the shape-to-dimension mapping are those of
      PyArrayToMat. */
  function PyArrayToMatCopying(a: BufferInfo): (r: Result<Mat>)
    requires Addressable(a)
    ensures r.Ok? <==> a.ndim == 2 || a.ndim == 3
    ensures r.Err? ==> r.error == UnsupportedDimension
    ensures a.ndim == 2 ==> r.Ok? && r.value.c == 1 && [r.value.h, r.value.w] == a.shape
    ensures a.ndim == 3 ==> r.Ok? && ChwShape(r.value) == a.shape
    ensures r.Ok? ==> Packed(r.value)
    ensures r.Ok? ==> forall x: nat, y: nat, z: nat :: x < r.value.w && y < r.value.h && z < r.value.c ==>
      ArrayAt(a, ArrayIndex(a.ndim, x, y, z)) == Some(MatAt(r.value, x, y, z))
  {
    CopyElementsAgree(a);
    PyArrayToMat(MakeContiguous(a))
  }

  /** Every element of the Mat built over the C-contiguous copy is the
      original array's element at the matching index. */
  lemma CopyElementsAgree(a: BufferInfo)
    requires Addressable(a)
    ensures var r := PyArrayToMat(MakeContiguous(a));
      r.Ok? ==> (
        && Packed(r.value)
        && forall x: nat, y: nat, z: nat :: x < r.value.w && y < r.value.h && z < r.value.c ==>
             ArrayAt(a, ArrayIndex(a.ndim, x, y, z)) == Some(MatAt(r.value, x, y, z)))
  {
    var c := MakeContiguous(a);
    var r := PyArrayToMat(c);
    if r.Ok? {
      forall x: nat, y: nat, z: nat | x < r.value.w && y < r.value.h && z < r.value.c
        ensures ArrayAt(a, ArrayIndex(a.ndim, x, y, z)) == Some(MatAt(r.value, x, y, z))
      {
        InputElementAt(c, x, y, z);
      }
    }
  }

  /** On a C-contiguous array the copying conversion and pyarray_to_mat as
      written build the same Mat. */
  lemma CopyingAgreesOnContiguous(a: BufferInfo)
    requires CContiguous(a)
    ensures Addressable(a)
    ensures PyArrayToMatCopying(a) == PyArrayToMat(a)
  {
    CopyOfContiguous(a);
  }
}

=== FILE: layout.dfy ===
/** Row-major layout arithmetic shared by both directions of the array/tensor
    marshaling: element counts, flat indices of multi-dimensional indices, and
    the dense byte strides a C-contiguous buffer carries.

    A shape is a sequence of dimension sizes, outermost first, as in a NumPy
    array's `shape`. An index is a sequence of coordinates of the same length.
 */
module Layout {

  /** Number of elements of an array of the given shape. */
  function Product(shape: seq<nat>): nat
  {
    if |shape| == 0 then 1 else shape[0] * Product(shape[1..])
  }

  /** `idx` addresses an element of an array of shape `shape`. */
  predicate InBounds(shape: seq<nat>, idx: seq<nat>)
  {
    |idx| == |shape| && forall i :: 0 <= i < |idx| ==> idx[i] < shape[i]
  }

  /** An index is in bounds exactly when its first coordinate is and the
      rest index the remaining dimensions. */
  lemma InBoundsCons(shape: seq<nat>, idx: seq<nat>)
    requires |shape| > 0 && |idx| == |shape|
    ensures InBounds(shape, idx) <==> idx[0] < shape[0] && InBounds(shape[1..], idx[1..])
  {
    if idx[0] < shape[0] && InBounds(shape[1..], idx[1..]) {
      forall i | 0 <= i < |idx|
        ensures idx[i] < shape[i]
      {
        if i > 0 {
          assert idx[i] == idx[1..][i - 1];
        }
      }
    }
  }

  /** Euclidean division by a positive divisor. */
  lemma DivMod(k: nat, m: nat)
    requires m > 0
    ensures (k / m) * m + k % m == k && k % m < m
  {
  }

  /** The product of two naturals is a natural. */
  lemma MulNonneg(x: int, y: int)
    requires x >= 0 && y >= 0
    ensures x * y >= 0
  {
  }

  /** a < n and b < m give a * m + b < n * m: the step that keeps a row-major
      flat index inside the buffer. */
  lemma MixedRadixBound(a: nat, b: nat, n: nat, m: nat)
    requires a < n && b < m
    ensures a * m + b < n * m
  {
    MulNonneg(n - a - 1, m);
    assert n * m == a * m + m + (n - a - 1) * m;
  }

  /** Position of element `idx` when the elements are laid out row-major
      (last coordinate varying fastest). */
  function FlatIndex(shape: seq<nat>, idx: seq<nat>): (k: nat)
    requires InBounds(shape, idx)
    ensures k < Product(shape)
    decreases |shape|
  {
    if |shape| == 0 then 0
    else
      InBoundsCons(shape, idx);
      var rest := FlatIndex(shape[1..], idx[1..]);
      MixedRadixBound(idx[0], rest, shape[0], Product(shape[1..]));
      idx[0] * Product(shape[1..]) + rest
  }

  /** k < n * m forces m to be positive and k / m to stay below n. */
  lemma QuotientBound(k: nat, n: nat, m: nat)
    requires k < n * m
    ensures m > 0 && k / m < n
  {
  }

  /** The index whose row-major position is `k`: the inverse of FlatIndex. */
  function Unflatten(shape: seq<nat>, k: nat): (idx: seq<nat>)
    requires k < Product(shape)
    ensures InBounds(shape, idx)
    ensures FlatIndex(shape, idx) == k
    decreases |shape|
  {
    if |shape| == 0 then []
    else
      var m := Product(shape[1..]);
      QuotientBound(k, shape[0], m);
      DivMod(k, m);
      var q: nat := k / m;
      var rest := Unflatten(shape[1..], k % m);
      assert ([q] + rest)[1..] == rest;
      InBoundsCons(shape, [q] + rest);
      [q] + rest
  }

  /** The only multiple of m strictly between -m and m is zero. */
  lemma SmallMultiple(d: int, m: int)
    requires m > 0 && -m < d * m < m
    ensures d == 0
  {
    if d >= 1 {
      MulNonneg(d - 1, m);
    } else if d <= -1 {
      MulNonneg(-d - 1, m);
    }
  }

  /** Dividing a * m + b by m, with b < m, gives back a and b. */
  lemma DivModOfMixedRadix(a: nat, b: nat, m: nat)
    requires b < m
    ensures (a * m + b) / m == a && (a * m + b) % m == b
  {
    var k := a * m + b;
    assert (k / m - a) * m == b - k % m;
    SmallMultiple(k / m - a, m);
  }

  /** Row-major positions identify elements: FlatIndex is injective on
      in-bounds indices, and Unflatten recovers the index. */
  lemma {:induction false} UnflattenFlatIndex(shape: seq<nat>, idx: seq<nat>)
    requires InBounds(shape, idx)
    ensures Unflatten(shape, FlatIndex(shape, idx)) == idx
    decreases |shape|
  {
    if |shape| > 0 {
      var m := Product(shape[1..]);
      InBoundsCons(shape, idx);
      var rest := FlatIndex(shape[1..], idx[1..]);
      DivModOfMixedRadix(idx[0], rest, m);
      UnflattenFlatIndex(shape[1..], idx[1..]);
      assert idx == [idx[0]] + idx[1..];
    }
  }

  /** The byte strides of a C-contiguous array: the stride of dimension i is
      the element size times the number of elements of one slice along it. */
  function DenseStrides(shape: seq<nat>, itemsize: nat): (strides: seq<nat>)
    ensures |strides| == |shape|
    ensures forall i :: 0 <= i < |shape| ==> strides[i] == itemsize * Product(shape[i + 1..])
  {
    if |shape| == 0 then []
    else
      var tail := DenseStrides(shape[1..], itemsize);
      assert forall i :: 1 <= i < |shape| ==> shape[1..][i..] == shape[i + 1..];
      [itemsize * Product(shape[1..])] + tail
  }

  /** Strides described the way the binding builds them: the last stride is
      the element size and each earlier stride is the next one times the
      next dimension's size. */
  predicate RowMajor(shape: seq<nat>, strides: seq<nat>, itemsize: nat)
  {
    && |strides| == |shape|
    && (|shape| > 0 ==> strides[|shape| - 1] == itemsize)
    && forall i :: 0 <= i < |shape| - 1 ==> strides[i] == strides[i + 1] * shape[i + 1]
  }

  /** Regrouping a product of three factors. */
  lemma MulRegroup(x: nat, a: nat, b: nat)
    ensures x * (a * b) == (x * b) * a
  {
  }

  /** Product of a suffix peels off its first dimension. */
  lemma ProductSuffix(shape: seq<nat>, i: nat)
    requires i < |shape|
    ensures Product(shape[i..]) == shape[i] * Product(shape[i + 1..])
  {
    assert shape[i..][1..] == shape[i + 1..];
  }

  /** Under the step-by-step description, stride i is itemsize times the
      product of the faster-varying dimensions. */
  lemma {:induction false} RowMajorStride(shape: seq<nat>, strides: seq<nat>, itemsize: nat, i: nat)
    requires RowMajor(shape, strides, itemsize)
    requires i < |shape|
    ensures strides[i] == itemsize * Product(shape[i + 1..])
    decreases |shape| - i
  {
    if i == |shape| - 1 {
      assert shape[i + 1..] == [];
    } else {
      RowMajorStride(shape, strides, itemsize, i + 1);
      ProductSuffix(shape, i + 1);
      MulRegroup(itemsize, shape[i + 1], Product(shape[i + 2..]));
    }
  }

  /** The step-by-step description and the closed form agree, in both
      directions: the strides are dense row-major exactly when they satisfy
      the recurrence. */
  lemma RowMajorIffDense(shape: seq<nat>, strides: seq<nat>, itemsize: nat)
    ensures RowMajor(shape, strides, itemsize) <==> strides == DenseStrides(shape, itemsize)
  {
    var dense := DenseStrides(shape, itemsize);
    if RowMajor(shape, strides, itemsize) {
      forall i | 0 <= i < |shape|
        ensures strides[i] == dense[i]
      {
        RowMajorStride(shape, strides, itemsize, i);
      }
    }
    if strides == dense {
      if |shape| > 0 {
        assert shape[|shape|..] == [];
      }
      forall i | 0 <= i < |shape| - 1
        ensures strides[i] == strides[i + 1] * shape[i + 1]
      {
        ProductSuffix(shape, i + 1);
        MulRegroup(itemsize, shape[i + 1], Product(shape[i + 2..]));
      }
    }
  }

  /** Factoring the element size out of a byte offset. */
  lemma Distribute(x: nat, a: nat, m: nat, r: nat)
    ensures a * (x * m) + x * r == x * (a * m + r)
  {
  }

  /** Byte offset of element `idx` in a buffer with the given strides. */
  function Offset(strides: seq<nat>, idx: seq<nat>): nat
    requires |idx| == |strides|
  {
    if |idx| == 0 then 0 else idx[0] * strides[0] + Offset(strides[1..], idx[1..])
  }

  /** With dense strides, the byte offset of an element is the element size
      times its row-major position: the strides introduce no padding and no
      transposition. */
  lemma {:induction false} DenseOffset(shape: seq<nat>, idx: seq<nat>, itemsize: nat)
    requires InBounds(shape, idx)
    ensures Offset(DenseStrides(shape, itemsize), idx) == itemsize * FlatIndex(shape, idx)
    decreases |shape|
  {
    if |shape| > 0 {
      var strides := DenseStrides(shape, itemsize);
      assert strides[1..] == DenseStrides(shape[1..], itemsize);
      assert InBounds(shape[1..], idx[1..]);
      DenseOffset(shape[1..], idx[1..], itemsize);
      var m := Product(shape[1..]);
      var rest := FlatIndex(shape[1..], idx[1..]);
      Distribute(itemsize, idx[0], m, rest);
    }
  }
}

=== FILE: marshal.dfy ===
/** The two conversions of the binding layer in src/bindings.cpp: a NumPy
    float32 array (seen through pybind11's buffer_info) becomes an ncnn::Mat
    for the engine, and an ncnn::Mat coming back from the engine becomes a
    NumPy array again.

    Pixel values are never computed on, so an element is the 32-bit pattern
    of a float, carried through unchanged.
 */
module Marshal {
  import opened Layout

  /** Bit pattern of one 32-bit float. */
  type Float32 = bv32

  /** sizeof(float): the element size, in bytes, of every buffer here. */
  const FloatSize: nat := 4

  /** Python buffer-protocol format character of float32. */
  const FloatFormat: string := "f"

  /** pybind11's buffer_info: the elements reachable from the data pointer,
      the element size and format, the declared rank, the shape (outermost
      dimension first) and the byte stride of every dimension. */
  datatype BufferInfo = BufferInfo(
    data: seq<Float32>,
    itemsize: nat,
    format: string,
    ndim: nat,
    shape: seq<nat>,
    strides: seq<nat>)

  /** Declared rank, shape length and stride length agree; pybind11 refuses
      to build a buffer_info otherwise, and every buffer_info obtained from
      an array satisfies it. */
  predicate Consistent(b: BufferInfo)
  {
    b.ndim == |b.shape| && |b.strides| == |b.shape|
  }

  /** ncnn::Mat as the binding builds and reads it: the declared rank
      (2 for the width/height constructor, 3 for the width/height/channel
      one), width, height, channel count and the float elements,
      channel-major, then row-major. The element size and packing are not
      represented: every Mat here holds unpacked 4-byte floats. */
  datatype Mat = Mat(dims: nat, w: nat, h: nat, c: nat, data: seq<Float32>)

  /** The tensor's dimensions written outermost first, the way a NumPy
      shape is. */
  function ChwShape(m: Mat): seq<nat>
  {
    [m.c, m.h, m.w]
  }

  /** The Mat holds exactly one element per (channel, row, column), with the
      channels packed back to back. */
  predicate Packed(m: Mat)
  {
    |m.data| == Product(ChwShape(m))
  }

  /** The exception pyarray_to_mat throws ("Unsupported array dimension"). */
  datatype Error = UnsupportedDimension

  datatype Result<T> = Ok(value: T) | Err(error: Error)

  datatype Option<T> = None | Some(value: T)

  /** pyarray_to_mat: a rank-2 array (H, W) becomes a one-channel Mat of
      width W and height H; a rank-3 array (C, H, W) becomes a Mat with C
      channels; any other rank is refused. The Mat is built over the array's
      own elements and the array's strides are not consulted. */
  function PyArrayToMat(a: BufferInfo): (r: Result<Mat>)
    requires Consistent(a)
    ensures r.Ok? <==> a.ndim == 2 || a.ndim == 3
    ensures r.Err? ==> r.error == UnsupportedDimension
    ensures a.ndim == 2 ==> r.Ok? && r.value.c == 1 && [r.value.h, r.value.w] == a.shape
    ensures a.ndim == 3 ==> r.Ok? && ChwShape(r.value) == a.shape
    ensures r.Ok? ==> r.value.dims == a.ndim && r.value.data == a.data
    ensures r.Ok? ==> Product(ChwShape(r.value)) == Product(a.shape)
  {
    if a.ndim == 2 then
      Ok(Mat(2, a.shape[1], a.shape[0], 1, a.data))
    else if a.ndim == 3 then
      Ok(Mat(3, a.shape[2], a.shape[1], a.shape[0], a.data))
    else
      Err(UnsupportedDimension)
  }

  /** mat_to_pyarray: a one-channel Mat becomes a rank-2 array (h, w), any
      other channel count (including zero) a rank-3 array (c, h, w); the
      strides are those of a C-contiguous float32 array and the elements are
      the Mat's, unchanged. The Mat's declared rank is not read: converting
      the result back gives the same Mat except that its rank becomes the
      one the channel count selects. */
  function MatToPyArray(m: Mat): (b: BufferInfo)
    ensures Consistent(b)
    ensures b.ndim == 2 <==> m.c == 1
    ensures b.ndim == 2 || b.ndim == 3
    ensures b.itemsize == FloatSize && b.format == FloatFormat
    ensures RowMajor(b.shape, b.strides, FloatSize)
    ensures b.shape[b.ndim - 2..] == [m.h, m.w]
    ensures b.ndim == 3 ==> b.shape == ChwShape(m)
    ensures Product(b.shape) == Product(ChwShape(m))
    ensures b.data == m.data
    ensures PyArrayToMat(b) == Ok(m.(dims := b.ndim))
  {
    var shape := if m.c == 1 then [m.h, m.w] else [m.c, m.h, m.w];
    var strides :=
      if m.c == 1 then [FloatSize * m.w, FloatSize]
      else [FloatSize * m.h * m.w, FloatSize * m.w, FloatSize];
    BufferInfo(m.data, FloatSize, FloatFormat, if m.c == 1 then 2 else 3, shape, strides)
  }

  /** Element (x, y, z) of a packed Mat: column x of row y of channel z. */
  function MatAt(m: Mat, x: nat, y: nat, z: nat): Float32
    requires Packed(m)
    requires x < m.w && y < m.h && z < m.c
  {
    assert InBounds(ChwShape(m), [z, y, x]);
    m.data[FlatIndex(ChwShape(m), [z, y, x])]
  }

  /** The NumPy index of column x, row y, channel z in an array of the given
      rank: channel-less for rank 2. */
  function ArrayIndex(ndim: nat, x: nat, y: nat, z: nat): seq<nat>
  {
    if ndim == 2 then [y, x] else [z, y, x]
  }

  /** The element a NumPy array holds at `idx`, found through its byte
      strides; None when that offset lies outside the buffer. */
  function ArrayAt(a: BufferInfo, idx: seq<nat>): Option<Float32>
    requires Consistent(a) && InBounds(a.shape, idx)
  {
    var k := Offset(a.strides, idx) / FloatSize;
    if k < |a.data| then Some(a.data[k]) else None
  }
}

=== FILE: rife.dfy ===
/** The `process` and `process_cpu` methods the binding registers on the
    Python RIFE class: convert both input frames, hand them to the engine,
    and return the engine's status code with the converted output frame.

    The engine itself (RIFE::process on Vulkan, RIFE::process_cpu on the CPU)
    is not part of this model; it appears as a function from the two input
    Mats and the timestep to a status code and an output Mat. Every engine
    invocation is recorded in the outcome, so "the engine is not called"
    is a statement about that record.

    The methods are modelled as written, over pyarray_to_mat. The wrapper
    with the corrected input conversion sits beside them and is shown to
    agree with them on C-contiguous frames and to differ on the transposed
    view.
 */
module Rife {
  import opened Layout
  import opened Marshal
  import opened RoundTrip
  import opened Contiguity

  /** One compute path of the engine: (frame 0, frame 1, timestep) to
      (status code, output frame). */
  type Engine = (Mat, Mat, Float32) -> (int, Mat)

  /** A RIFE instance, reduced to its two compute paths. */
  datatype Rife = Rife(gpu: Engine, cpu: Engine)

  /** The arguments of one engine invocation. */
  datatype Call = Call(in0: Mat, in1: Mat, timestep: Float32)

  /** What a call from Python produces: the (status, frame) tuple or the
      conversion exception, and the engine invocations made on the way. */
  datatype Outcome = Outcome(result: Result<(int, BufferInfo)>, calls: seq<Call>)

  /** The body shared by `process` and `process_cpu`, as written: convert
      frame 0, then frame 1, with pyarray_to_mat, invoke the engine once,
      and pair its status code, untouched, with the output Mat converted to
      an array. A conversion failure surfaces before the engine is reached. */
  function Interpolate(engine: Engine, in0: BufferInfo, in1: BufferInfo, timestep: Float32): (o: Outcome)
    requires Consistent(in0) && Consistent(in1)
    ensures o.result.Ok? <==> (in0.ndim == 2 || in0.ndim == 3) && (in1.ndim == 2 || in1.ndim == 3)
    ensures o.result.Err? ==> o.calls == [] && o.result.error == UnsupportedDimension
    ensures o.result.Ok? ==>
      && o.calls == [Call(PyArrayToMat(in0).value, PyArrayToMat(in1).value, timestep)]
      && o.result.value.0 == engine(o.calls[0].in0, o.calls[0].in1, timestep).0
      && o.result.value.1 == MatToPyArray(engine(o.calls[0].in0, o.calls[0].in1, timestep).1)
  {
    match PyArrayToMat(in0)
    case Err(e) => Outcome(Err(e), [])
    case Ok(m0) =>
      match PyArrayToMat(in1)
      case Err(e) => Outcome(Err(e), [])
      case Ok(m1) =>
        var (status, out) := engine(m0, m1, timestep);
        Outcome(Ok((status, MatToPyArray(out))), [Call(m0, m1, timestep)])
  }

  /** The shared body with the corrected input conversion: the engine
      receives Mats that hold each frame's elements at their indices,
      whatever the frames' float-aligned strides. */
  function InterpolateCopying(engine: Engine, in0: BufferInfo, in1: BufferInfo, timestep: Float32): (o: Outcome)
    requires Addressable(in0) && Addressable(in1)
    ensures o.result.Ok? <==> (in0.ndim == 2 || in0.ndim == 3) && (in1.ndim == 2 || in1.ndim == 3)
    ensures o.result.Err? ==> o.calls == [] && o.result.error == UnsupportedDimension
    ensures o.result.Ok? ==>
      && o.calls == [Call(PyArrayToMatCopying(in0).value, PyArrayToMatCopying(in1).value, timestep)]
      && o.result.value.0 == engine(o.calls[0].in0, o.calls[0].in1, timestep).0
      && o.result.value.1 == MatToPyArray(engine(o.calls[0].in0, o.calls[0].in1, timestep).1)
  {
    match PyArrayToMatCopying(in0)
    case Err(e) => Outcome(Err(e), [])
    case Ok(m0) =>
      match PyArrayToMatCopying(in1)
      case Err(e) => Outcome(Err(e), [])
      case Ok(m1) =>
        var (status, out) := engine(m0, m1, timestep);
        Outcome(Ok((status, MatToPyArray(out))), [Call(m0, m1, timestep)])
  }

  /** RIFE.process: the frames are refused unless both have rank 2 or 3, in
      which case the Vulkan path is called once on the Mats pyarray_to_mat
      builds, and its status comes back unchanged with its output frame
      converted. */
  function Process(self: Rife, in0: BufferInfo, in1: BufferInfo, timestep: Float32): (o: Outcome)
    requires Consistent(in0) && Consistent(in1)
    ensures o.result.Ok? <==> (in0.ndim == 2 || in0.ndim == 3) && (in1.ndim == 2 || in1.ndim == 3)
    ensures o.result.Err? ==> o.calls == [] && o.result.error == UnsupportedDimension
    ensures o.result.Ok? ==>
      var m0, m1 := PyArrayToMat(in0).value, PyArrayToMat(in1).value;
      && o.calls == [Call(m0, m1, timestep)]
      && o.result.value == (self.gpu(m0, m1, timestep).0, MatToPyArray(self.gpu(m0, m1, timestep).1))
  {
    Interpolate(self.gpu, in0, in1, timestep)
  }

  /** RIFE.process_cpu: the same as RIFE.process, with the CPU path called
      instead. */
  function ProcessCpu(self: Rife, in0: BufferInfo, in1: BufferInfo, timestep: Float32): (o: Outcome)
    requires Consistent(in0) && Consistent(in1)
    ensures o.result.Ok? <==> (in0.ndim == 2 || in0.ndim == 3) && (in1.ndim == 2 || in1.ndim == 3)
    ensures o.result.Err? ==> o.calls == [] && o.result.error == UnsupportedDimension
    ensures o.result.Ok? ==>
      var m0, m1 := PyArrayToMat(in0).value, PyArrayToMat(in1).value;
      && o.calls == [Call(m0, m1, timestep)]
      && o.result.value == (self.cpu(m0, m1, timestep).0, MatToPyArray(self.cpu(m0, m1, timestep).1))
  {
    Interpolate(self.cpu, in0, in1, timestep)
  }

  /** The two methods differ only in the compute path they invoke:
      process_cpu on an instance is process on the instance whose paths are
      swapped. */
  lemma BackendsShareWrapper(self: Rife, in0: BufferInfo, in1: BufferInfo, timestep: Float32)
    requires Consistent(in0) && Consistent(in1)
    ensures ProcessCpu(self, in0, in1, timestep) == Process(Rife(self.cpu, self.gpu), in0, in1, timestep)
  {
  }

  /** When either frame has an unsupported rank the outcome does not depend
      on the engine at all: no engine is consulted. */
  lemma FailureIndependentOfEngine(e1: Engine, e2: Engine, in0: BufferInfo, in1: BufferInfo, timestep: Float32)
    requires Consistent(in0) && Consistent(in1)
    requires !(in0.ndim == 2 || in0.ndim == 3) || !(in1.ndim == 2 || in1.ndim == 3)
    ensures Interpolate(e1, in0, in1, timestep) == Interpolate(e2, in0, in1, timestep)
    ensures Interpolate(e1, in0, in1, timestep).calls == []
  {
  }

  /** The returned frame is rank 2 exactly when the engine's output Mat has
      one channel, is densely strided, and carries the output's elements
      unchanged. */
  lemma OutputFrameShape(engine: Engine, in0: BufferInfo, in1: BufferInfo, timestep: Float32)
    requires Consistent(in0) && Consistent(in1)
    requires Interpolate(engine, in0, in1, timestep).result.Ok?
    ensures var o := Interpolate(engine, in0, in1, timestep);
      var out := engine(o.calls[0].in0, o.calls[0].in1, timestep).1;
      var frame := o.result.value.1;
      && (frame.ndim == 2 <==> out.c == 1)
      && frame.strides == DenseStrides(frame.shape, FloatSize)
      && frame.data == out.data
  {
    var o := Interpolate(engine, in0, in1, timestep);
    var frame := o.result.value.1;
    RowMajorIffDense(frame.shape, frame.strides, FloatSize);
  }

  /** On C-contiguous frames the corrected wrapper and the wrapper as
      written produce the same outcome: the same engine call, on the Mats
      pyarray_to_mat builds, and the same result. */
  lemma ContiguousFramesAsWritten(engine: Engine, in0: BufferInfo, in1: BufferInfo, timestep: Float32)
    requires CContiguous(in0) && CContiguous(in1)
    ensures Addressable(in0) && Addressable(in1)
    ensures InterpolateCopying(engine, in0, in1, timestep) == Interpolate(engine, in0, in1, timestep)
  {
    CopyingAgreesOnContiguous(in0);
    CopyingAgreesOnContiguous(in1);
  }

  /** On the transposed view the two wrappers hand the engine different
      frames: as written, column 1 of row 0 of the first input Mat holds
      1.0; with the corrected conversion it holds 2.0, the array's element
      there. */
  lemma TransposedFramesDiverge(engine: Engine, timestep: Float32)
    ensures Addressable(TransposedView())
    ensures var t := TransposedView();
      var written := Interpolate(engine, t, t, timestep);
      var copying := InterpolateCopying(engine, t, t, timestep);
      && |written.calls| == 1 && |copying.calls| == 1
      && Packed(written.calls[0].in0) && Packed(copying.calls[0].in0)
      && written.calls[0].in0.w == 2 && written.calls[0].in0.h == 2
      && copying.calls[0].in0.w == 2 && copying.calls[0].in0.h == 2
      && MatAt(written.calls[0].in0, 1, 0, 0) == 0x3f80_0000
      && MatAt(copying.calls[0].in0, 1, 0, 0) == 0x4000_0000
  {
    var t := TransposedView();
    TransposedViewMisread();
    var m := PyArrayToMatCopying(t).value;
    assert ArrayIndex(t.ndim, 1, 0, 0) == [0, 1];
    assert ArrayAt(t, ArrayIndex(t.ndim, 1, 0, 0)) == Some(MatAt(m, 1, 0, 0));
  }

  /** A C-contiguous float32 array of the given shape with every element
      equal to `v`. */
  function Filled(shape: seq<nat>, v: Float32): (a: BufferInfo)
    ensures CContiguous(a) && a.shape == shape
  {
    BufferInfo(seq(Product(shape), _ => v), FloatSize, FloatFormat, |shape|, shape,
      DenseStrides(shape, FloatSize))
  }

  /** Two (2, 4, 4) frames, one all zeros and one all ones: the engine is
      called once, on two-channel 4 x 4 Mats, and a two-channel 4 x 4
      output comes back as a (2, 4, 4) array with the engine's status. */
  lemma TwoChannelScenario(engine: Engine, timestep: Float32)
    requires var out := engine(Mat(3, 4, 4, 2, Filled([2, 4, 4], 0).data),
                               Mat(3, 4, 4, 2, Filled([2, 4, 4], 0x3f80_0000).data), timestep).1;
      out.c == 2 && out.h == 4 && out.w == 4
    ensures var o := Interpolate(engine, Filled([2, 4, 4], 0), Filled([2, 4, 4], 0x3f80_0000), timestep);
      && o.result.Ok?
      && |o.calls| == 1
      && o.calls[0].in0 == Mat(3, 4, 4, 2, Filled([2, 4, 4], 0).data)
      && o.calls[0].in1 == Mat(3, 4, 4, 2, Filled([2, 4, 4], 0x3f80_0000).data)
      && o.result.value.0 == engine(o.calls[0].in0, o.calls[0].in1, timestep).0
      && o.result.value.1.shape == [2, 4, 4]
  {
  }

  /** A rank-1 frame of length 10 is refused with UnsupportedDimension and
      the engine is never called. */
  lemma RankOneScenario(engine: Engine, frame: BufferInfo, timestep: Float32)
    requires Consistent(frame)
    ensures var o := Interpolate(engine, Filled([10], 0), frame, timestep);
      o.result == Err(UnsupportedDimension) && o.calls == []
  {
  }
}

=== FILE: roundtrip.dfy ===
/** What the two conversions of src/bindings.cpp do to shapes, strides and
    element positions when composed, and what they keep of each element.
 */
module RoundTrip {
  import opened Layout
  import opened Marshal

  /** A C-contiguous array, as NumPy lays one out: dense row-major strides
      and exactly one element per index. */
  predicate CContiguous(a: BufferInfo)
  {
    && Consistent(a)
    && a.strides == DenseStrides(a.shape, FloatSize)
    && |a.data| == Product(a.shape)
  }

  /** In a C-contiguous array the element at `idx` is the one at its
      row-major position in the buffer. */
  lemma ContiguousArrayAt(a: BufferInfo, idx: seq<nat>)
    requires CContiguous(a) && InBounds(a.shape, idx)
    ensures ArrayAt(a, idx) == Some(a.data[FlatIndex(a.shape, idx)])
  {
    DenseOffset(a.shape, idx, FloatSize);
  }

  /** Converting an array to a Mat and back: the buffer comes back
      unchanged and is re-read with dense strides, whatever the input's
      strides were; a rank-2 array and a rank-3 array with other than one
      channel keep their shape, while a rank-3 array with a single channel
      loses its channel axis and comes back as rank 2. */
  lemma ShapeRoundTrip(a: BufferInfo)
    requires Consistent(a) && (a.ndim == 2 || a.ndim == 3)
    ensures var b := MatToPyArray(PyArrayToMat(a).value);
      && b.data == a.data
      && b.strides == DenseStrides(b.shape, FloatSize)
      && (a.ndim == 2 ==> b.shape == a.shape)
      && (a.ndim == 3 && a.shape[0] != 1 ==> b.shape == a.shape)
      && (a.ndim == 3 && a.shape[0] == 1 ==> b.shape == a.shape[1..])
  {
    var b := MatToPyArray(PyArrayToMat(a).value);
    RowMajorIffDense(b.shape, b.strides, FloatSize);
  }

  /** The round trip gives back the original shape exactly when the array
      is not a rank-3 array with a single channel. */
  lemma ShapePreservedIff(a: BufferInfo)
    requires Consistent(a) && (a.ndim == 2 || a.ndim == 3)
    ensures MatToPyArray(PyArrayToMat(a).value).shape == a.shape
        <==> !(a.ndim == 3 && a.shape[0] == 1)
  {
    ShapeRoundTrip(a);
  }

  /** Converting a Mat to an array and back keeps its width, height,
      channel count and elements, whatever the channel count; its declared
      rank becomes 2 for one channel and 3 otherwise, so the Mat comes back
      unchanged exactly when it already had that rank. A rank-3 Mat with one
      channel comes back as rank 2. */
  lemma MatRoundTrip(m: Mat)
    ensures PyArrayToMat(MatToPyArray(m)) == Ok(m.(dims := if m.c == 1 then 2 else 3))
    ensures PyArrayToMat(MatToPyArray(m)) == Ok(m) <==> m.dims == (if m.c == 1 then 2 else 3)
  {
  }

  /** A rank-2 array (H, W) and a rank-3 array (1, H, W) over the same
      buffer give the engine Mats that agree in width, height, channel count
      and elements and differ only in their declared rank. */
  lemma SingleChannelRanksDiffer(a2: BufferInfo, a3: BufferInfo)
    requires Consistent(a2) && Consistent(a3)
    requires a2.ndim == 2 && a3.ndim == 3
    requires a3.shape == [1] + a2.shape && a3.data == a2.data
    ensures PyArrayToMat(a2).Ok? && PyArrayToMat(a3).Ok?
    ensures PyArrayToMat(a2).value.dims == 2 && PyArrayToMat(a3).value.dims == 3
    ensures PyArrayToMat(a2).value == PyArrayToMat(a3).value.(dims := 2)
  {
  }

  /** For a C-contiguous input, the round trip keeps every value at its
      index: the array that comes back holds, at each index, what the input
      held there, with the channel axis of a single-channel rank-3 input
      dropped from the index. */
  lemma ValuesRoundTrip(a: BufferInfo, idx: seq<nat>)
    requires CContiguous(a) && (a.ndim == 2 || a.ndim == 3)
    requires InBounds(a.shape, idx)
    ensures var b := MatToPyArray(PyArrayToMat(a).value);
      var back := if b.ndim == a.ndim then idx else idx[1..];
      && InBounds(b.shape, back)
      && ArrayAt(b, back) == ArrayAt(a, idx)
  {
    var b := MatToPyArray(PyArrayToMat(a).value);
    ShapeRoundTrip(a);
    if b.ndim == a.ndim {
      assert b.shape == a.shape && b.strides == a.strides && b.data == a.data;
    } else {
      DroppedChannelValue(a, b, idx);
    }
  }

  /** Re-reading a C-contiguous (1, H, W) buffer densely as (H, W) finds
      each value at its index with the channel coordinate dropped. */
  lemma DroppedChannelValue(a: BufferInfo, b: BufferInfo, idx: seq<nat>)
    requires CContiguous(a) && a.ndim == 3 && a.shape[0] == 1
    requires InBounds(a.shape, idx)
    requires Consistent(b) && b.shape == a.shape[1..] && b.data == a.data
    requires b.strides == DenseStrides(b.shape, FloatSize)
    ensures InBounds(b.shape, idx[1..])
    ensures ArrayAt(b, idx[1..]) == ArrayAt(a, idx)
  {
    InBoundsCons(a.shape, idx);
    assert idx[0] == 0;
    ContiguousArrayAt(a, idx);
    ContiguousArrayAt(b, idx[1..]);
  }

  /** The array emitted for a Mat is C-contiguous when the Mat is packed. */
  lemma EmittedIsContiguous(m: Mat)
    requires Packed(m)
    ensures CContiguous(MatToPyArray(m))
  {
    var b := MatToPyArray(m);
    RowMajorIffDense(b.shape, b.strides, FloatSize);
  }

  /** Every element of a packed Mat is found in the emitted array where
      NumPy expects it: column x of row y of channel z sits at index
      [z, y, x] (or [y, x] for a single channel), so the emitted strides
      neither pad nor transpose. */
  lemma OutputElementAt(m: Mat, x: nat, y: nat, z: nat)
    requires Packed(m) && x < m.w && y < m.h && z < m.c
    ensures var b := MatToPyArray(m);
      var idx := ArrayIndex(b.ndim, x, y, z);
      && InBounds(b.shape, idx)
      && ArrayAt(b, idx) == Some(MatAt(m, x, y, z))
  {
    var b := MatToPyArray(m);
    var idx := ArrayIndex(b.ndim, x, y, z);
    EmittedIsContiguous(m);
    assert InBounds(b.shape, idx);
    ContiguousArrayAt(b, idx);
    assert InBounds(ChwShape(m), [z, y, x]);
    if m.c == 1 {
      SingleChannelFlatIndex(m.h, m.w, y, x);
    }
  }

  /** Dropping a leading axis of size one leaves row-major positions as
      they are. */
  lemma SingleChannelFlatIndex(h: nat, w: nat, y: nat, x: nat)
    requires y < h && x < w
    ensures InBounds([1, h, w], [0, y, x]) && InBounds([h, w], [y, x])
    ensures FlatIndex([1, h, w], [0, y, x]) == FlatIndex([h, w], [y, x])
  {
    assert InBounds([1, h, w], [0, y, x]);
    assert [1, h, w][1..] == [h, w] && [0, y, x][1..] == [y, x];
  }

  /** For a C-contiguous rank-2 or rank-3 array, element (x, y, z) of the
      Mat built over it is the array's element at index [z, y, x] (or
      [y, x] for rank 2). */
  lemma InputElementAt(a: BufferInfo, x: nat, y: nat, z: nat)
    requires CContiguous(a) && (a.ndim == 2 || a.ndim == 3)
    requires a.ndim == 2 ==> z == 0
    requires InBounds(a.shape, ArrayIndex(a.ndim, x, y, z))
    ensures var m := PyArrayToMat(a).value;
      && Packed(m)
      && x < m.w && y < m.h && z < m.c
      && ArrayAt(a, ArrayIndex(a.ndim, x, y, z)) == Some(MatAt(m, x, y, z))
  {
    var m := PyArrayToMat(a).value;
    var idx := ArrayIndex(a.ndim, x, y, z);
    ContiguousArrayAt(a, idx);
    assert InBounds(ChwShape(m), [z, y, x]);
    if a.ndim == 2 {
      SingleChannelFlatIndex(m.h, m.w, y, x);
    }
  }
}
